=== FILE: README.md ===
# QR code generator service: a Dafny model of its core

The service is a small Flask application (`qr-code-generator/app.py`). Its
two handlers, `POST /generate-qr` and `POST /download-qr`, read a JSON body
or a form, validate the fields and render a QR code. When a logo comes with
the request, they paste it onto the centre of the QR bitmap over a white
square. Generate also appends a history entry when the `auto_history`
setting is on. `POST /settings` merges a JSON object into the settings.

This project models that core:

- `pixels.dfy` (module `Pixels`): RGBA pixels and PIL's paste of one pixel
  through a mask value.
- `compositor.dfy` (module `Compositor`): the logo compositing block. It
  computes the patch geometry, pastes each image as an in-place rectangle
  overwrite on an `array2`, and falls back to the plain QR bitmap when the
  logo cannot be used. It also models the logo's mode conversion and mask
  choice.
- `strings.dfy` (module `Strings`): the Python string operations the
  handlers use: `strip`, `startswith`, and the text between commas.
- `data_url.dfy` (module `DataUrl`): how a `backgroundImage` form value is
  turned into a base64 payload (`startswith('data:image')`, then
  `split(',')[1]`).
- `request.dfy` (module `Request`): field resolution, shared by both
  handlers and both body kinds. It covers the defaults, the colour-scheme
  table, the order in which failures are raised (400 versus 500), colour
  normalisation and the error-correction level.
- `store.dfy` (module `Store`): the in-memory history and settings, as a
  class whose methods update its fields.
- `service.dfy` (module `Service`): the two handlers, built on the above.

Everything the handlers do outside this core is a parameter or left out:
QR encoding, image decoding, base64, PNG and the clock. A failed handler
step is a `Failure` value carrying its HTTP status, not an exception.

## Model

| member | source | states |
|---|---|---|
| Pixels.Mix | qr-code-generator/app.py:159-164 | a channel pasted with mask 0 keeps the channel underneath, with mask 255 takes the pasted channel, and otherwise lies between the two |
| Pixels.Blend | qr-code-generator/app.py:159-164 | a pixel pasted with mask 0 is unchanged, and with mask 255 is replaced by the pasted pixel |
| Pixels.PasteThroughAlpha | qr-code-generator/app.py:159-164 | `paste(im, box, im)` at one pixel: the pasted pixel blended through its own alpha; characterised by `Pixels.OpaquePasteReplaces` and `Pixels.ClearPasteKeeps` |
| Pixels.OpaquePasteReplaces | qr-code-generator/app.py:159-164 | a pixel pasted through its own alpha of 255 replaces the pixel underneath |
| Pixels.ClearPasteKeeps | qr-code-generator/app.py:159-164 | a pixel pasted through its own alpha of 0 leaves the pixel underneath |
| Pixels.CompositePixel | qr-code-generator/app.py:155-164 | one patch pixel: the logo pixel pasted onto opaque white, then onto the QR pixel; characterised by `Pixels.OpaqueLogoPixelShows`, `Pixels.ClearLogoPixelShowsWhite` and `Pixels.TranslucentLogoPixelLeavesBackingTranslucent` |
| Pixels.OpaqueLogoPixelShows | qr-code-generator/app.py:155-164 | a fully opaque logo pixel appears in the output unchanged |
| Pixels.ClearLogoPixelShowsWhite | qr-code-generator/app.py:155-164 | a fully transparent logo pixel shows as opaque white, whatever QR pixel lies under it |
| Pixels.BackingBetweenLogoAndWhite | qr-code-generator/app.py:155-159 | each channel of the white backing after the logo paste is at least the logo's channel |
| Pixels.TranslucentLogoPixelLeavesBackingTranslucent | qr-code-generator/app.py:155-164 | a partly transparent logo pixel leaves the backing's alpha below 255, so the backing need not hide the QR pixel under it |
| Pixels.HalfClearLogoShowsQr | qr-code-generator/app.py:155-164 | under a half-transparent black logo pixel, a black and a white QR pixel give different output pixels, so the QR module shows through |
| Compositor.PatchSide | qr-code-generator/app.py:134 | `min(width, height) // 4`; characterised by `Compositor.PatchInsideCanvas` |
| Compositor.PatchX | qr-code-generator/app.py:147 | `(width - side) // 2`; characterised by `Compositor.PatchInsideCanvas` |
| Compositor.PatchY | qr-code-generator/app.py:148 | `(height - side) // 2`; characterised by `Compositor.PatchInsideCanvas` |
| Compositor.PatchInsideCanvas | qr-code-generator/app.py:131-148 | the patch side is a quarter of the shorter side (floor), the patch lies inside the bitmap, and it is centred to within one pixel, the spare pixel going right or down |
| Compositor.PatchOfThreeHundredSquare | qr-code-generator/app.py:134-148 | a 300 x 300 bitmap gets a 75-pixel patch at (112, 112) |
| Compositor.Paste | qr-code-generator/app.py:159-164 | `dst.paste(src, (x0, y0), mask)`: every pixel of `src` that falls inside `dst` is blended through its own alpha over the pixel beneath; clipped parts and all other pixels keep their old value |
| Compositor.Composite | qr-code-generator/app.py:150-164 | a fresh bitmap the size of the QR bitmap; inside the centred patch each pixel is the logo pixel pasted onto opaque white, then pasted onto the QR pixel; outside the patch it equals the QR pixel |
| Compositor.CompositeShowsOpaqueLogo | qr-code-generator/app.py:150-164 | inside the patch, an opaque logo pixel is exactly the output pixel |
| Compositor.CompositeShowsWhiteUnderClearLogo | qr-code-generator/app.py:150-164 | inside the patch, a transparent logo pixel gives an opaque white output pixel |
| Compositor.TinyCanvasUnchanged | qr-code-generator/app.py:134-164 | a bitmap narrower or shorter than 4 pixels gets an empty patch and comes out equal to the QR bitmap |
| Compositor.EmbedLogo | qr-code-generator/app.py:120-184 | with no usable logo the output is the QR bitmap itself; with one it is a fresh composite; either way every pixel outside the patch is the QR pixel |
| Compositor.LogoMaskAlwaysAlpha | qr-code-generator/app.py:139-144 | whatever the logo's mode, after the RGBA conversion the mask is band 3 (alpha), so the unmasked paste branch is never taken |
| Strings.TrimStart | qr-code-generator/app.py:59 | the result is a suffix of the input, everything dropped is whitespace, and the result does not start with whitespace |
| Strings.TrimEnd | qr-code-generator/app.py:59 | the result is a prefix of the input, everything dropped is whitespace, and the result does not end with whitespace |
| Strings.Strip | qr-code-generator/app.py:59 | `str.strip()` with Python's whitespace set; characterised by `Strings.StripIsTrimmedSlice`, `Strings.StripEmptyIffAllSpace` and `Strings.StripIdempotent` |
| Strings.StripIsTrimmedSlice | qr-code-generator/app.py:59 | the stripped text is a slice of the input with only whitespace cut off on either side and no whitespace at its ends |
| Strings.StripEmptyIffAllSpace | qr-code-generator/app.py:59 | stripping gives the empty string exactly when every character is whitespace |
| Strings.StripIdempotent | qr-code-generator/app.py:59 | stripping twice is stripping once |
| Strings.UpToComma | qr-code-generator/app.py:86-87 | the result is a comma-free prefix, followed in the input by a comma or the end |
| Strings.UpToCommaWholeIffNoComma | qr-code-generator/app.py:86-87 | the text before the first comma is the whole string exactly when there is no comma |
| Strings.SecondField | qr-code-generator/app.py:87 | `s.split(',')[1]` for a text with a comma; characterised by `DataUrl.PayloadBetweenFirstTwoCommas` |
| DataUrl.LogoPayload | qr-code-generator/app.py:79-87 | a payload exists exactly when the value starts with `data:image`; without a comma it is the whole value, with one it holds no comma |
| DataUrl.PayloadBetweenFirstTwoCommas | qr-code-generator/app.py:86-87 | with a comma, the payload is exactly the text between the first comma and the next comma (or the end) |
| DataUrl.PayloadRoundTrip | qr-code-generator/app.py:82-87 | a browser data URL `data:image<type>,<payload>[,<rest>]` gives back exactly its payload |
| Request.LevelOf | qr-code-generator/app.py:109 | a level is found exactly for the texts L, M, Q and H |
| Request.ReadJson | qr-code-generator/app.py:57-66 | reading a JSON body fails (500) exactly when the content is not text or the scheme is not a table key; which of the two causes is returned (the content check comes first); on success every field, `size` included, is the value sent or its default (10 for the size, the scheme's colours for the colours), the content is stripped, and there is no logo |
| Request.ReadForm | qr-code-generator/app.py:67-95 | reading a form fails (500) exactly when `int()` rejects a sent size or the scheme is unknown, and the failure names the first of the two (a bad size before an unknown scheme); on success the size is the converted number or 10, the other fields are as for JSON, and the logo is the upload or the data-URL payload |
| Request.FormText | qr-code-generator/app.py:69-75 | a form value read with a text default is always text |
| Request.Read | qr-code-generator/app.py:56-95 | the reading step of either body kind: its success condition, its 500 failures, and the fields it yields, the size being the JSON value sent or the form text through `int()`, 10 by default |
| Request.NormalizeColor | qr-code-generator/app.py:100-104 | the result starts with '#': the colour itself when it does, the default otherwise |
| Request.NormalizeColorIdempotent | qr-code-generator/app.py:100-104 | normalising twice is normalising once |
| Request.Validate | qr-code-generator/app.py:97-109 | after reading, empty content is the only 400; a non-text colour or an unknown level is a 500; on success the colours are normalised, the level is the one named, and content, size, scheme, output and logo are passed on unchanged |
| Request.Resolve | qr-code-generator/app.py:56-109 | a resolved request has non-empty content, a known scheme, colours starting with '#', the endpoint's output, the size read, and a logo only from a form |
| Request.UnknownSchemeIsServerError | qr-code-generator/app.py:59-98 | an unknown scheme is a 500 whatever else is sent, even blank content and explicit colours, because the table lookup runs while the fields are read |
| Request.BlankContentIsClientError | qr-code-generator/app.py:59-98 | whitespace-only content is answered 400 "Content is required" when nothing read before it failed |
| Request.ResolveSucceedsIff | qr-code-generator/app.py:56-109 | resolution succeeds exactly when the content is text with a non-whitespace character, a form size converts, the scheme is known, both colours are text and the level is L, M, Q or H |
| Request.ResolvedForeground | qr-code-generator/app.py:63-102 | the foreground is the scheme's when none is sent, the one sent when it starts with '#', and "#000000" otherwise |
| Request.ResolvedBackground | qr-code-generator/app.py:64-104 | the background is the scheme's when none is sent, the one sent when it starts with '#', and "#FFFFFF" otherwise |
| Request.ResolvedContentAndLevel | qr-code-generator/app.py:59-109 | the resolved content is the stripped content sent (so stripping it again changes nothing), the level is the one named, and the scheme is the one sent |
| Request.SchemeColorsNeedNoReplacement | qr-code-generator/app.py:27-34 | every colour in the scheme table starts with '#' |
| Request.Lookup | qr-code-generator/app.py:27-34 | the colours a dictionary literal holds for a key (the last entry with that key); characterised by `Request.LookupFindsLast`, `Request.LookupNoneIffAbsent` and `Request.SchemeNames` |
| Request.LookupFindsLast | qr-code-generator/app.py:27-34 | a lookup finds the colours of the last entry with the name |
| Request.LookupNoneIffAbsent | qr-code-generator/app.py:63-64 | a lookup finds nothing (the `KeyError`) exactly when no entry has the name |
| Request.SchemeNames | qr-code-generator/app.py:27-34 | the known schemes are exactly Classic, Blue, Green, Purple, Red and Custom |
| Request.SchemeColors | qr-code-generator/app.py:63-64 | `COLOR_SCHEMES[name]` for a known scheme; characterised by `Request.SchemeColorsNeedNoReplacement` and `Request.DefaultSchemeKnown` |
| Request.DefaultSchemeKnown | qr-code-generator/app.py:27-34 | the default scheme "Classic" is in the table, with colours "#000000" and "#FFFFFF" |
| Request.FormDataUrlLogo | qr-code-generator/app.py:78-91 | without an uploaded file, a data-URL `backgroundImage` gives its payload as the logo; an uploaded file takes precedence |
| Request.FormLogo | qr-code-generator/app.py:78-91 | the upload when there is one, otherwise the payload of a data-URL `backgroundImage` text field, otherwise no logo; characterised by `Request.FormDataUrlLogo` |
| Store.Merged | qr-code-generator/app.py:387 | `settings.update(patch)`: the keys are the union; patched keys take the patch's values and the others keep theirs |
| Store.AutoHistory | qr-code-generator/app.py:191 | `settings.get('auto_history', True)` is truthy; characterised by `Store.InitiallyRecording`, `Store.FalsySettingStopsRecording` and `Store.TextFalseKeepsRecording` |
| Store.NewRecord | qr-code-generator/app.py:192-203 | a history entry holds its id, the content, the type label, the size, the level, the scheme, the two colours, the image URL and the creation time; it is what `Store.AppState.RecordGeneration` appends |
| Store.AppState.constructor | qr-code-generator/app.py:37-45 | the process starts with an empty history and the initial settings |
| Store.AppState.RecordGeneration | qr-code-generator/app.py:190-204 | with `auto_history` truthy, exactly one entry is appended, numbered one past the current length; otherwise the history is unchanged; ids stay 1..n; settings are untouched |
| Store.AppState.UpdateSettings | qr-code-generator/app.py:382-388 | the settings become the merge of the old settings and the patch; the history is untouched |
| Store.SequentialIdsLocate | qr-code-generator/app.py:193 | ids numbered by append order are distinct, lie in 1..n, and the id names the entry's position |
| Store.InitiallyRecording | qr-code-generator/app.py:38-45 | the initial settings have history recording on |
| Store.FalsySettingStopsRecording | qr-code-generator/app.py:191 | sending a falsy `auto_history` (false, 0, "" or null) turns recording off |
| Store.TextFalseKeepsRecording | qr-code-generator/app.py:191 | the string "false" is truthy, so sending it leaves recording on |
| Store.MergeIdempotent | qr-code-generator/app.py:387 | applying the same patch twice equals applying it once, and an empty patch changes nothing |
| Service.GenerateQr | qr-code-generator/app.py:52-218 | a failed resolution is answered with its status and leaves the history alone; a resolved request whose rendering raises is answered 500 and leaves the history alone; otherwise it is rendered, answered, and recorded when `auto_history` is on |
| Service.DownloadQr | qr-code-generator/app.py:220-364 | download fails exactly when resolution does; in the model, format "svg" succeeds with the `Svg` artifact and no logo, any other format the PNG with the request's logo |
| Service.RejectionStatus | qr-code-generator/app.py:97-218 | a rejected generate request is a 400 exactly when everything read is well-formed and the stripped content is empty |

## Left out

- QR encoding (`qrcode`, `pyqrcode` SVG output) and `make_image` are not modelled. The QR bitmap is an input to `Compositor.EmbedLogo`, and rendering is the `render` parameter of `Service.GenerateQr`.
- Image decoding (`Image.open`), the LANCZOS resize and the pixel conversion of `convert('RGBA')` are not modelled: the logo arrives as an RGBA array already of the patch side. The conversion's effect on the mode, and so on the mask choice, is modelled (`Compositor.ConvertedLogoMode`). A failure in any of these steps is the `None` case of `EmbedLogo`'s logo.
- The QR bitmap's conversion to RGBA is not modelled; it arrives as RGBA.
- Pixels.Mix: for mask values strictly between 0 and 255, the rounding is this model's (nearest integer). PIL's exact integer arithmetic is not reproduced, and only the values at 0 and 255 are claimed to match it. `Pixels.TranslucentLogoPixelLeavesBackingTranslucent` and the note on the logo backing below depend on this rounding for intermediate masks: the claim would also hold if PIL rounded down, but not if it rounded up (logo alpha 254 over opaque white gives 254.003, which rounds up to 255).
- base64 decoding of the payload and its failure path are not modelled. `Logo.Encoded` carries the payload text.
- PNG encoding, `send_file`, download file names, `datetime.now()` and `print` are not modelled. The timestamp of a history entry is the `createdAt` parameter.
- Request.ReadForm: Python's `int()` on the `size` text is the `parseInt` parameter. The model keeps where that step sits in the failure order, but not which texts it accepts.
- JSON values are text, numbers, booleans and null. Arrays, objects and the integer/float distinction are left out. A body that is not a JSON object (for requests or for settings) is not modelled.
- What `qrcode` does with an unusual `size` (`box_size`) is not modelled; the value is carried through unchanged.
- `Payload.Form`'s `uploaded` flag stands for a `backgroundImage` file part that is truthy, i.e. one with a non-empty file name. The file's bytes are not modelled.
- The read-only endpoints (`/`, `/history`, `/settings` GET, `/qr-types`, `/color-schemes`) only serialise state. They are not modelled.
- Flask request parsing and concurrency between requests are not modelled. The history and the settings are one `AppState` object, used by one request at a time.
- Compositor.Paste requires `dst` and `src` to be different arrays. The source always pastes a separate image.
- Service.DownloadQr: encoder and SVG failures after field resolution are not modelled. The `Svg` artifact stands for the vector output. Whether the `pyqrcode` call at app.py line 287 succeeds depends on that library's API, which is not part of this model. If it raises, the handler answers 500 (lines 363-364) where the model succeeds.
- Request.ResolveSucceedsIff and the lemmas next to it describe the handlers' field resolution only. Failures raised later by the encoder or by rendering are the `None` case of `Service.GenerateQr`'s `render` parameter; which requests make the encoder raise (a size of 0, say) is not modelled.
- A history entry stores the error-correction level as the `Level` it names, not as the text sent. The two correspond one to one on every request that gets recorded.

A note on the logo backing: the comments in the source describe the white
square as ensuring contrast under the logo. The code pastes the backing
through its own alpha, so where the logo is partly transparent the backing
is too (`Pixels.TranslucentLogoPixelLeavesBackingTranslucent`), and the QR
modules beneath can still show through (`Pixels.HalfClearLogoShowsQr` gives
a half-transparent logo pixel where they do). The model follows the code.

=== FILE: compositor.dfy ===
/**
 * The logo compositor of the generate and download handlers.
 *
 * Images are two-dimensional arrays of RGBA pixels indexed [x, y]: Length0
 * is the width and Length1 the height, as in PIL's (width, height) sizes.
 * The QR bitmap arrives already converted to RGBA and the logo already
 * resized to the patch side; the two pastes overwrite rectangles in place.
 */
module Compositor {
  import opened Outcomes
  import opened Pixels

  /** Side of the square logo patch: a quarter of the shorter canvas side. */
  function PatchSide(width: nat, height: nat): nat
  {
    Min(width, height) / 4
  }

  /** Left edge of the centred patch (floor division, as Python's //). */
  function PatchX(width: nat, height: nat): nat
  {
    (width - PatchSide(width, height)) / 2
  }

  /** Top edge of the centred patch. */
  function PatchY(width: nat, height: nat): nat
  {
    (height - PatchSide(width, height)) / 2
  }

  /** Whether (x, y) lies in the rectangle of size w x h whose corner is (x0, y0). */
  predicate InBox(x: int, y: int, x0: int, y0: int, w: int, h: int)
  {
    x0 <= x < x0 + w && y0 <= y < y0 + h
  }

  /**
   * The patch lies inside the canvas, is a quarter of its shorter side, and
   * is centred: the margins on either side differ by at most one pixel, the
   * extra pixel going to the right or bottom.
   */
  lemma PatchInsideCanvas(width: nat, height: nat)
    ensures 4 * PatchSide(width, height) <= width && 4 * PatchSide(width, height) <= height
    ensures 4 * PatchSide(width, height) + 4 > Min(width, height)
    ensures var side, x, y := PatchSide(width, height), PatchX(width, height), PatchY(width, height);
      && 0 <= x && x + side <= width
      && 0 <= y && y + side <= height
      && 0 <= (width - (x + side)) - x <= 1
      && 0 <= (height - (y + side)) - y <= 1
  {
  }

  /** A 300 x 300 bitmap gets a 75 x 75 patch at (112, 112). */
  lemma PatchOfThreeHundredSquare()
    ensures PatchSide(300, 300) == 75 && PatchX(300, 300) == 112 && PatchY(300, 300) == 112
  {
  }

  /**
   * PIL's `dst.paste(src, (x0, y0), src)`: every pixel of `src` that falls
   * inside `dst` is pasted through its own alpha over the pixel beneath it;
   * the parts of `src` outside `dst` are clipped; nothing else changes.
   */
  method Paste(dst: array2<Rgba>, src: array2<Rgba>, x0: int, y0: int)
    requires dst != src
    modifies dst
    ensures forall x, y :: 0 <= x < dst.Length0 && 0 <= y < dst.Length1 ==>
      dst[x, y] == if InBox(x, y, x0, y0, src.Length0, src.Length1)
                   then PasteThroughAlpha(old(dst[x, y]), src[x - x0, y - y0])
                   else old(dst[x, y])
  {
    var left, right := Max(x0, 0), Min(x0 + src.Length0, dst.Length0);
    var top, bottom := Max(y0, 0), Min(y0 + src.Length1, dst.Length1);
    var x := left;
    while x < right
      invariant left <= x || right <= left
      invariant forall i, j :: 0 <= i < dst.Length0 && 0 <= j < dst.Length1 ==>
        dst[i, j] == if InBox(i, j, x0, y0, src.Length0, src.Length1) && i < x
                     then PasteThroughAlpha(old(dst[i, j]), src[i - x0, j - y0])
                     else old(dst[i, j])
    {
      var y := top;
      while y < bottom
        invariant top <= y || bottom <= top
        invariant forall i, j :: 0 <= i < dst.Length0 && 0 <= j < dst.Length1 ==>
          dst[i, j] == if InBox(i, j, x0, y0, src.Length0, src.Length1) && (i < x || (i == x && j < y))
                       then PasteThroughAlpha(old(dst[i, j]), src[i - x0, j - y0])
                       else old(dst[i, j])
      {
        dst[x, y] := PasteThroughAlpha(dst[x, y], src[x - x0, y - y0]);
        y := y + 1;
      }
      x := x + 1;
    }
  }

  /**
   * `result` has the size of `qr`; inside the centred patch each pixel is the
   * composite of the QR pixel and the logo pixel at the same place in the
   * patch, and outside the patch each pixel is the QR pixel.
   */
  ghost predicate IsComposite(result: array2<Rgba>, qr: array2<Rgba>, logo: array2<Rgba>)
    reads result, qr, logo
  {
    && result.Length0 == qr.Length0 && result.Length1 == qr.Length1
    && logo.Length0 == logo.Length1 == PatchSide(qr.Length0, qr.Length1)
    && forall x, y :: 0 <= x < qr.Length0 && 0 <= y < qr.Length1 ==> CompositeAt(result, qr, logo, x, y)
  }

  /** The pixel (x, y) of `result` is the one the composite has there. */
  ghost predicate CompositeAt(result: array2<Rgba>, qr: array2<Rgba>, logo: array2<Rgba>, x: int, y: int)
    requires 0 <= x < result.Length0 && 0 <= y < result.Length1
    requires 0 <= x < qr.Length0 && 0 <= y < qr.Length1
    requires logo.Length0 == logo.Length1 == PatchSide(qr.Length0, qr.Length1)
    reads result, qr, logo
  {
    var x0, y0 := PatchX(qr.Length0, qr.Length1), PatchY(qr.Length0, qr.Length1);
    result[x, y] == if InBox(x, y, x0, y0, logo.Length0, logo.Length1)
                    then CompositePixel(qr[x, y], logo[x - x0, y - y0])
                    else qr[x, y]
  }

  /**
   * The compositing block: copy the QR bitmap, build an opaque white square
   * of the patch side, paste the logo onto it through the logo's alpha, and
   * paste that square onto the copy at the centred offset through its own
   * alpha. The QR bitmap itself is left as it was.
   */
  method Composite(qr: array2<Rgba>, logo: array2<Rgba>) returns (result: array2<Rgba>)
    requires logo.Length0 == PatchSide(qr.Length0, qr.Length1)
    requires logo.Length1 == PatchSide(qr.Length0, qr.Length1)
    ensures fresh(result)
    ensures result.Length0 == qr.Length0 && result.Length1 == qr.Length1
    ensures IsComposite(result, qr, logo)
  {
    var width, height := qr.Length0, qr.Length1;
    PatchInsideCanvas(width, height);
    var side := PatchSide(width, height);
    var x0, y0 := PatchX(width, height), PatchY(width, height);
    result := new Rgba[width, height]((x, y) reads qr requires 0 <= x < width && 0 <= y < height => qr[x, y]);
    var backing := new Rgba[side, side]((x, y) => White);
    assert forall i, j :: 0 <= i < side && 0 <= j < side ==> backing[i, j] == White;
    Paste(backing, logo, 0, 0);
    forall i, j | 0 <= i < side && 0 <= j < side
      ensures backing[i, j] == PasteThroughAlpha(White, logo[i, j])
    {
      assert InBox(i, j, 0, 0, side, side);
    }
    assert forall x, y :: 0 <= x < width && 0 <= y < height ==> result[x, y] == qr[x, y];
    Paste(result, backing, x0, y0);
    forall x, y | 0 <= x < qr.Length0 && 0 <= y < qr.Length1
      ensures CompositeAt(result, qr, logo, x, y)
    {
      if InBox(x, y, x0, y0, side, side) {
        assert backing[x - x0, y - y0] == PasteThroughAlpha(White, logo[x - x0, y - y0]);
      }
    }
  }

  /** A pixel of the composite inside the patch. */
  lemma CompositeInPatch(result: array2<Rgba>, qr: array2<Rgba>, logo: array2<Rgba>, x: int, y: int)
    requires IsComposite(result, qr, logo)
    requires 0 <= x - PatchX(qr.Length0, qr.Length1) < logo.Length0
    requires 0 <= y - PatchY(qr.Length0, qr.Length1) < logo.Length1
    ensures 0 <= x < result.Length0 && 0 <= y < result.Length1
    ensures result[x, y] == CompositePixel(qr[x, y], logo[x - PatchX(qr.Length0, qr.Length1), y - PatchY(qr.Length0, qr.Length1)])
  {
    PatchInsideCanvas(qr.Length0, qr.Length1);
    assert 0 <= x < qr.Length0 && 0 <= y < qr.Length1;
    assert CompositeAt(result, qr, logo, x, y);
    assert InBox(x, y, PatchX(qr.Length0, qr.Length1), PatchY(qr.Length0, qr.Length1), logo.Length0, logo.Length1);
  }

  /** Inside the patch, a fully opaque logo pixel appears in the composite unchanged. */
  lemma CompositeShowsOpaqueLogo(result: array2<Rgba>, qr: array2<Rgba>, logo: array2<Rgba>, x: int, y: int)
    requires IsComposite(result, qr, logo)
    requires 0 <= x - PatchX(qr.Length0, qr.Length1) < logo.Length0
    requires 0 <= y - PatchY(qr.Length0, qr.Length1) < logo.Length1
    requires logo[x - PatchX(qr.Length0, qr.Length1), y - PatchY(qr.Length0, qr.Length1)].a == 255
    ensures 0 <= x < result.Length0 && 0 <= y < result.Length1
    ensures result[x, y] == logo[x - PatchX(qr.Length0, qr.Length1), y - PatchY(qr.Length0, qr.Length1)]
  {
    CompositeInPatch(result, qr, logo, x, y);
    var under, pixel := qr[x, y], logo[x - PatchX(qr.Length0, qr.Length1), y - PatchY(qr.Length0, qr.Length1)];
    OpaqueLogoPixelShows(under, pixel);
  }

  /** Inside the patch, a fully transparent logo pixel shows as opaque white. */
  lemma CompositeShowsWhiteUnderClearLogo(result: array2<Rgba>, qr: array2<Rgba>, logo: array2<Rgba>, x: int, y: int)
    requires IsComposite(result, qr, logo)
    requires 0 <= x - PatchX(qr.Length0, qr.Length1) < logo.Length0
    requires 0 <= y - PatchY(qr.Length0, qr.Length1) < logo.Length1
    requires logo[x - PatchX(qr.Length0, qr.Length1), y - PatchY(qr.Length0, qr.Length1)].a == 0
    ensures 0 <= x < result.Length0 && 0 <= y < result.Length1
    ensures result[x, y] == White
  {
    CompositeInPatch(result, qr, logo, x, y);
    var under, pixel := qr[x, y], logo[x - PatchX(qr.Length0, qr.Length1), y - PatchY(qr.Length0, qr.Length1)];
    ClearLogoPixelShowsWhite(under, pixel);
  }

  /**
   * A bitmap narrower or shorter than 4 pixels gets an empty patch, so the
   * composite equals the QR bitmap, exactly as the fallback would.
   */
  lemma TinyCanvasUnchanged(result: array2<Rgba>, qr: array2<Rgba>, logo: array2<Rgba>)
    requires IsComposite(result, qr, logo)
    requires qr.Length0 < 4 || qr.Length1 < 4
    ensures forall x, y :: 0 <= x < qr.Length0 && 0 <= y < qr.Length1 ==> result[x, y] == qr[x, y]
  {
    assert logo.Length0 == 0;
    forall x, y | 0 <= x < qr.Length0 && 0 <= y < qr.Length1
      ensures result[x, y] == qr[x, y]
    {
      assert CompositeAt(result, qr, logo, x, y);
    }
  }

  /**
   * Logo integration with its fallback: `logo` is None when opening or
   * resizing the logo raised, and then the unmodified QR bitmap is the
   * output; otherwise the composite is.
   */
  method EmbedLogo(qr: array2<Rgba>, logo: Option<array2<Rgba>>) returns (output: array2<Rgba>)
    requires logo.Some? ==> logo.value.Length0 == PatchSide(qr.Length0, qr.Length1)
    requires logo.Some? ==> logo.value.Length1 == PatchSide(qr.Length0, qr.Length1)
    ensures output.Length0 == qr.Length0 && output.Length1 == qr.Length1
    ensures logo.None? ==> output == qr
    ensures logo.Some? ==> fresh(output) && IsComposite(output, qr, logo.value)
    ensures forall x, y ::
      && 0 <= x < qr.Length0 && 0 <= y < qr.Length1
      && (logo.None? || !InBox(x, y, PatchX(qr.Length0, qr.Length1), PatchY(qr.Length0, qr.Length1),
                               logo.value.Length0, logo.value.Length1))
      ==> output[x, y] == qr[x, y]
  {
    match logo {
      case None => output := qr;
      case Some(l) =>
        output := Composite(qr, l);
        forall x, y | 0 <= x < qr.Length0 && 0 <= y < qr.Length1
          ensures output[x, y] == qr[x, y] || InBox(x, y, PatchX(qr.Length0, qr.Length1), PatchY(qr.Length0, qr.Length1), l.Length0, l.Length1)
        {
          assert CompositeAt(output, qr, l, x, y);
        }
    }
  }

  /** PIL image modes a decoded logo may have. */
  datatype Mode = Bilevel | Gray | GrayAlpha | Palette | Rgb | RgbAlpha | Cmyk | YCbCr | Int32 | Float32

  /** The number of bands `split()` yields for an image of the mode. */
  function BandCount(mode: Mode): nat
  {
    match mode
    case Bilevel | Gray | Palette | Int32 | Float32 => 1
    case GrayAlpha => 2
    case Rgb | YCbCr => 3
    case RgbAlpha | Cmyk => 4
  }

  /** The logo after `convert('RGBA')`, which runs unless it is already RGBA. */
  function ConvertedLogoMode(mode: Mode): Mode
  {
    if mode != RgbAlpha then RgbAlpha else mode
  }

  /** The band used as paste mask: band 3 when `split()` yields four bands, none otherwise. */
  function LogoMaskBand(mode: Mode): Option<nat>
  {
    if BandCount(mode) == 4 then Some(3) else None
  }

  /**
   * Whatever mode the logo arrives in, after the conversion its alpha band
   * is the mask, so the unmasked paste branch is never taken.
   */
  lemma LogoMaskAlwaysAlpha(mode: Mode)
    ensures ConvertedLogoMode(mode) == RgbAlpha
    ensures LogoMaskBand(ConvertedLogoMode(mode)) == Some(3)
  {
  }
}

=== FILE: data_url.dfy ===
/**
 * The form field `backgroundImage` sent as text: only a value starting with
 * `data:image` is taken as a logo, and its base64 payload is the text after
 * the first comma, up to the next comma if there is one.
 */
module DataUrl {
  import opened Outcomes
  import opened Strings

  const Marker: string := "data:image"

  /**
   * The payload of a `backgroundImage` form value, or None when the value is
   * not a data URL and no logo is taken from it. The empty value is not one.
   */
  function LogoPayload(value: string): (r: Option<string>)
    ensures r.Some? <==> StartsWith(value, Marker)
    ensures r.Some? && ',' !in value ==> r.value == value
    ensures r.Some? && ',' in value ==> ',' !in r.value
  {
    if value != [] && StartsWith(value, Marker) then
      Some(if ',' in value then SecondField(value) else value)
    else
      None
  }

  /**
   * When the value has a comma, the payload is the text between its first
   * comma and the next comma, or the end of the value if there is no second
   * comma.
   */
  lemma PayloadBetweenFirstTwoCommas(value: string)
    requires StartsWith(value, Marker) && ',' in value
    ensures exists i, j :: FieldBetweenCommas(value, i, j) && LogoPayload(value).value == value[i + 1..j]
  {
    PayloadIsSecondField(value);
    var i, j := SecondFieldAt(value);
  }

  /** With a comma, the payload is Python's `value.split(',')[1]`. */
  lemma PayloadIsSecondField(value: string)
    requires StartsWith(value, Marker) && ',' in value
    ensures LogoPayload(value) == Some(SecondField(value))
  {
  }

  /** Where `SecondField` sits in the string. */
  lemma SecondFieldAt(value: string) returns (i: int, j: int)
    requires ',' in value
    ensures FieldBetweenCommas(value, i, j) && SecondField(value) == value[i + 1..j]
  {
    var head := UpToComma(value);
    UpToCommaWholeIffNoComma(value);
    var tail := value[|head| + 1..];
    var payload := UpToComma(tail);
    assert SecondField(value) == payload;
    if |payload| < |tail| {
      assert value[|head| + 1 + |payload|] == tail[|payload|];
    }
    i, j := |head|, |head| + 1 + |payload|;
    FieldAt(value, head, payload);
  }

  /** A comma-free `head` and `payload` laid out around commas in `value`. */
  lemma FieldAt(value: string, head: string, payload: string)
    requires |head| < |value| && head == value[..|head|] && value[|head|] == ',' && ',' !in head
    requires |payload| <= |value| - |head| - 1 && payload == value[|head| + 1..][..|payload|] && ',' !in payload
    requires |head| + 1 + |payload| == |value| || value[|head| + 1 + |payload|] == ','
    ensures FieldBetweenCommas(value, |head|, |head| + 1 + |payload|)
    ensures payload == value[|head| + 1..|head| + 1 + |payload|]
  {
    var i := |head|;
    SliceOfSuffix(value, i + 1, |payload|);
    forall k | 0 <= k < i ensures value[k] != ',' {
      assert value[k] == head[k];
    }
    forall k | i < k < i + 1 + |payload| ensures value[k] != ',' {
      assert value[k] == payload[k - i - 1];
    }
  }

  /**
   * `value[i]` is its first comma and `value[j]`, if there is one, the next:
   * `value[i + 1..j]` is the second comma-separated field.
   */
  predicate FieldBetweenCommas(value: string, i: int, j: int)
  {
    && 0 <= i < j <= |value|
    && value[i] == ','
    && (forall k :: 0 <= k < i ==> value[k] != ',')
    && (forall k :: i < k < j ==> value[k] != ',')
    && (j == |value| || value[j] == ',')
  }

  /**
   * The usual browser form `data:image/png;base64,<payload>` gives back
   * exactly the payload, whatever follows at a second comma.
   */
  lemma PayloadRoundTrip(mediaType: string, payload: string, rest: string)
    requires ',' !in mediaType && ',' !in payload
    requires rest == [] || rest[0] == ','
    ensures LogoPayload(Marker + mediaType + "," + payload + rest) == Some(payload)
  {
    var header := Marker + mediaType;
    var value := header + ("," + (payload + rest));
    Regroup(Marker, mediaType, payload, rest);
    MarkerHeader(mediaType, "," + (payload + rest));
    UpToCommaOf(header, "," + (payload + rest));
    AfterComma(header, payload + rest);
    UpToCommaOf(payload, rest);
    assert SecondField(value) == payload;
  }

  /** The same concatenation, grouped around the first comma. */
  lemma Regroup(a: string, b: string, c: string, d: string)
    ensures a + b + "," + c + d == (a + b) + ("," + (c + d))
  {
  }

  /** A data URL header with a comma-free media type holds no comma. */
  lemma MarkerHeader(mediaType: string, tail: string)
    requires ',' !in mediaType
    ensures ',' !in Marker + mediaType
    ensures StartsWith(Marker + mediaType + tail, Marker)
  {
    assert (Marker + mediaType + tail)[..|Marker|] == Marker;
    assert forall c :: c in Marker ==> c != ',';
  }

  /** What follows the comma after `head`. */
  lemma AfterComma(head: string, tail: string)
    ensures (head + ("," + tail))[|head|] == ','
    ensures (head + ("," + tail))[|head| + 1..] == tail
  {
  }

  /** The text before the first comma of `head + tail`, when `head` has none and `tail` starts with one. */
  lemma {:induction false} UpToCommaOf(head: string, tail: string)
    requires ',' !in head
    requires tail == [] || tail[0] == ','
    ensures UpToComma(head + tail) == head
  {
    if head != [] {
      assert (head + tail)[1..] == head[1..] + tail;
      UpToCommaOf(head[1..], tail);
    }
  }
}

=== FILE: outcomes.dfy ===
/** Option and Result: the explicit forms of Python's None and of a raised exception. */
module Outcomes {

  datatype Option<+T> = None | Some(value: T)

  datatype Result<+R, +E> = Success(value: R) | Failure(error: E)
}

=== FILE: pixels.dfy ===
/**
 * RGBA pixels and PIL's masked paste of one pixel over another.
 *
 * A paste through a mask writes, channel by channel, a blend of the pixel
 * underneath and the pixel pasted, weighted by the mask value m: m = 0 keeps
 * what is underneath, m = 255 writes the pasted pixel. For the values in
 * between this model rounds the weighted mean to the nearest integer; no
 * property proved here depends on that choice except where a lemma says so.
 */
module Pixels {

  /** One 8-bit colour or alpha channel. */
  type Channel = x: int | 0 <= x <= 255

  datatype Rgba = Rgba(r: Channel, g: Channel, b: Channel, a: Channel)

  /** The fill of the backing square: opaque white. */
  const White: Rgba := Rgba(255, 255, 255, 255)

  function Min(x: int, y: int): int { if x <= y then x else y }
  function Max(x: int, y: int): int { if x <= y then y else x }

  lemma MixWithinBounds(under: Channel, over: Channel, m: Channel)
    ensures 255 * Min(under, over) <= under * (255 - m) + over * m <= 255 * Max(under, over)
  {
    var lo, hi := Min(under, over), Max(under, over);
    assert lo * (255 - m) <= under * (255 - m) <= hi * (255 - m) by {
      MulMonotone(lo, under, 255 - m);
      MulMonotone(under, hi, 255 - m);
    }
    assert lo * m <= over * m <= hi * m by {
      MulMonotone(lo, over, m);
      MulMonotone(over, hi, m);
    }
    assert lo * (255 - m) + lo * m == 255 * lo;
    assert hi * (255 - m) + hi * m == 255 * hi;
  }

  lemma MulMonotone(x: int, y: int, k: nat)
    requires x <= y
    ensures x * k <= y * k
  {
  }

  /**
   * One channel of a masked paste: `under` is the channel already in the
   * destination, `over` the channel of the pasted image, `m` the mask value.
   * The two ends are written out; the weighted mean gives the same values
   * there.
   */
  function Mix(under: Channel, over: Channel, m: Channel): (c: Channel)
    ensures m == 0 ==> c == under
    ensures m == 255 ==> c == over
    ensures Min(under, over) <= c <= Max(under, over)
  {
    if m == 0 then under
    else if m == 255 then over
    else
      MixWithinBounds(under, over, m);
      var weighted := under * (255 - m) + over * m;
      assert 255 * Min(under, over) <= weighted + 127 < 255 * (Max(under, over) + 1);
      (weighted + 127) / 255
  }

  /** A masked paste of one pixel: every channel, alpha included, blended by m. */
  function Blend(under: Rgba, over: Rgba, m: Channel): (p: Rgba)
    ensures m == 0 ==> p == under
    ensures m == 255 ==> p == over
  {
    Rgba(Mix(under.r, over.r, m), Mix(under.g, over.g, m), Mix(under.b, over.b, m), Mix(under.a, over.a, m))
  }

  /**
   * A paste of `over` through its own alpha channel, as PIL does when the
   * image pasted is also given as the mask (or its alpha band is).
   */
  function PasteThroughAlpha(under: Rgba, over: Rgba): Rgba
  {
    Blend(under, over, over.a)
  }

  /**
   * What the compositing steps produce at one pixel of the patch: the logo
   * pixel pasted through its alpha onto opaque white, and that backing pixel
   * pasted through its own alpha onto the QR pixel.
   */
  function CompositePixel(qr: Rgba, logo: Rgba): Rgba
  {
    PasteThroughAlpha(qr, PasteThroughAlpha(White, logo))
  }

  /** A pixel pasted through its own alpha of 255 replaces what is underneath. */
  lemma OpaquePasteReplaces(under: Rgba, over: Rgba)
    requires over.a == 255
    ensures PasteThroughAlpha(under, over) == over
  {
  }

  /** A pixel pasted through its own alpha of 0 leaves what is underneath. */
  lemma ClearPasteKeeps(under: Rgba, over: Rgba)
    requires over.a == 0
    ensures PasteThroughAlpha(under, over) == under
  {
  }

  /** A fully opaque logo pixel appears in the output unchanged. */
  lemma OpaqueLogoPixelShows(qr: Rgba, logo: Rgba)
    requires logo.a == 255
    ensures CompositePixel(qr, logo) == logo
  {
    OpaquePasteReplaces(White, logo);
    OpaquePasteReplaces(qr, logo);
  }

  /** A fully transparent logo pixel leaves opaque white in the output. */
  lemma ClearLogoPixelShowsWhite(qr: Rgba, logo: Rgba)
    requires logo.a == 0
    ensures CompositePixel(qr, logo) == White
  {
    ClearPasteKeeps(White, logo);
    OpaquePasteReplaces(qr, White);
  }

  /**
   * Whatever the logo pixel, the backing pixel is white in every channel
   * where the logo is, or brighter; in particular a logo pixel that is not
   * fully transparent never darkens the backing below the logo itself.
   */
  lemma BackingBetweenLogoAndWhite(logo: Rgba)
    ensures var b := PasteThroughAlpha(White, logo);
      logo.r <= b.r && logo.g <= b.g && logo.b <= b.b && logo.a <= b.a
  {
  }

  /**
   * A partly transparent logo pixel makes the backing pixel partly
   * transparent too, so the backing need not occlude the QR module it
   * covers (`HalfClearLogoShowsQr` gives a pixel where it does not).
   */
  lemma TranslucentLogoPixelLeavesBackingTranslucent(logo: Rgba)
    requires 0 < logo.a < 255
    ensures PasteThroughAlpha(White, logo).a < 255
  {
    var m: int := logo.a;
    assert m * (255 - m) >= 254 by {
      MulMonotone(0, m - 1, 254 - m);
      assert (m - 1) * (254 - m) == m * (255 - m) - 254;
    }
    assert 255 * (255 - m) + m * m == 255 * 255 - m * (255 - m);
    BackingAlphaBelowOpaque(255 * (255 - m) + m * m);
  }

  /**
   * Under a half-transparent black logo pixel, a black and a white QR pixel
   * give different output pixels: the QR module shows through.
   */
  lemma HalfClearLogoShowsQr()
    ensures CompositePixel(Rgba(0, 0, 0, 255), Rgba(0, 0, 0, 128))
         != CompositePixel(Rgba(255, 255, 255, 255), Rgba(0, 0, 0, 128))
  {
  }

  lemma BackingAlphaBelowOpaque(weighted: int)
    requires 0 <= weighted <= 255 * 255 - 254
    ensures (weighted + 127) / 255 < 255
  {
  }
}

=== FILE: request.dfy ===
/**
 * Field resolution and validation shared by the generate and download
 * handlers: a JSON body or a form becomes either an error response (400 or
 * 500) or a resolved generation request.
 *
 * The order of the steps is the handlers' own: every field is read first,
 * and reading the colours looks the colour scheme up eagerly (the table
 * entry is the default argument of `get`, evaluated whether or not a colour
 * was sent); only then is the content checked, the colours normalised and
 * the error-correction level looked up.
 */
module Request {
  import opened Outcomes
  import opened Strings
  import DataUrl

  /** A JSON value as the handlers see it (arrays, objects and floats are not modelled). */
  datatype Value = Text(s: string) | Number(n: int) | Flag(b: bool) | Null

  /** Python truthiness of a value. */
  predicate Truthy(v: Value)
  {
    match v
    case Text(s) => s != []
    case Number(n) => n != 0
    case Flag(b) => b
    case Null => false
  }

  /** The palette of the source, in its order. */
  const Palette: seq<(string, (string, string))> := [
    ("Classic", ("#000000", "#FFFFFF")),
    ("Blue", ("#1e3a8a", "#ffffff")),
    ("Green", ("#059669", "#ffffff")),
    ("Purple", ("#7c3aed", "#ffffff")),
    ("Red", ("#dc2626", "#ffffff")),
    ("Custom", ("#000000", "#ffffff"))
  ]

  /**
   * The colours a dictionary built from `entries` holds for `name`: those
   * of the last entry with that name, None when there is none.
   */
  function Lookup(entries: seq<(string, (string, string))>, name: string): Option<(string, string)>
  {
    if entries == [] then None
    else if entries[|entries| - 1].0 == name then Some(entries[|entries| - 1].1)
    else Lookup(entries[..|entries| - 1], name)
  }

  /** `name in COLOR_SCHEMES`. */
  predicate IsScheme(name: string)
  {
    Lookup(Palette, name).Some?
  }

  /** `COLOR_SCHEMES[name]`: the (foreground, background) pair of a scheme. */
  function SchemeColors(name: string): (string, string)
    requires IsScheme(name)
  {
    Lookup(Palette, name).value
  }

  /** Replacements for colours that do not start with '#'. */
  const DefaultForeground: string := "#000000"
  const DefaultBackground: string := "#FFFFFF"

  datatype Level = L | M | Q | H

  /** `getattr(qrcode.constants, f'ERROR_CORRECT_{v}')`: defined only for the four level names. */
  function LevelOf(v: Value): (r: Option<Level>)
    ensures r.Some? <==> v in {Text("L"), Text("M"), Text("Q"), Text("H")}
  {
    match v
    case Text(s) =>
      if s == "L" then Some(L)
      else if s == "M" then Some(M)
      else if s == "Q" then Some(Q)
      else if s == "H" then Some(H)
      else None
    case _ => None
  }

  datatype Endpoint = Generate | Download

  /** What the endpoint does with the result: a preview with a type label, or a file of a format. */
  datatype Output = Preview(qrType: Value) | File(format: Value)

  /** Where the logo comes from, before it is decoded. */
  datatype Logo = NoLogo | Upload | Encoded(payload: string)

  /**
   * The request body: a JSON object, or form fields plus whether a
   * non-empty `backgroundImage` file part was uploaded.
   */
  datatype Payload = Json(body: map<string, Value>) | Form(fields: map<string, string>, uploaded: bool)

  /** Why a request failed with 500. */
  datatype Cause =
    | NotText(field: string)          // a string method called on a non-string value
    | UnknownScheme(scheme: Value)    // KeyError from the palette table
    | BadSize(text: string)           // int() of the form field failed
    | BadLevel(level: Value)          // getattr found no such constant
    | RenderFailed                    // encoding or rendering raised after the fields were resolved

  datatype Failure = ContentRequired | Internal(cause: Cause)

  /** The HTTP status of a failure. */
  function Status(f: Failure): int
  {
    if f.ContentRequired? then 400 else 500
  }

  /** Every field read, before validation. */
  datatype Fields = Fields(
    content: string, size: Value, level: Value, scheme: string,
    foreground: Value, background: Value, output: Output, logo: Logo)

  /** A request that passed validation. */
  datatype GenerationRequest = GenerationRequest(
    content: string, size: Value, level: Level, scheme: string,
    foreground: string, background: string, output: Output, logo: Logo)

  /** `d.get(key, default)`. */
  function Get<V>(d: map<string, V>, key: string, default: V): V
  {
    if key in d then d[key] else default
  }

  /** The value sent for `key`, if any; form values are always text. */
  function Field(p: Payload, key: string): Option<Value>
  {
    match p
    case Json(body) => if key in body then Some(body[key]) else None
    case Form(fields, _) => if key in fields then Some(Text(fields[key])) else None
  }

  /** The value a handler reads for `key`: the one sent, or the default. */
  function FieldOr(p: Payload, key: string, default: Value): Value
  {
    match Field(p, key)
    case Some(v) => v
    case None => default
  }

  /** The value the palette lookup is made with. */
  function SchemeField(p: Payload): Value
  {
    FieldOr(p, "colorScheme", Text("Classic"))
  }

  /** Whether `int()` accepts the form's `size` field (JSON sizes are not converted). */
  predicate SizeConverts(p: Payload, parseInt: string -> Option<int>)
  {
    p.Form? && "size" in p.fields ==> parseInt(p.fields["size"]).Some?
  }

  /**
   * The size a handler reads: a JSON value as sent, a form's text through
   * `int()`, 10 when none is sent.
   */
  function SizeOf(p: Payload, parseInt: string -> Option<int>): Value
    requires SizeConverts(p, parseInt)
  {
    match p
    case Json(body) => FieldOr(p, "size", Number(10))
    case Form(fields, _) => if "size" in fields then Number(parseInt(fields["size"]).value) else Number(10)
  }

  predicate KnownScheme(v: Value)
  {
    v.Text? && IsScheme(v.s)
  }

  /** The preview label or the file format the endpoint reads. */
  function OutputOf(endpoint: Endpoint, p: Payload): Output
  {
    match endpoint
    case Generate => Preview(FieldOr(p, "type", Text("Text")))
    case Download => File(FieldOr(p, "format", Text("png")))
  }

  /** What reading guarantees besides the fields' values: the endpoint's output. */
  ghost predicate ReadWell(endpoint: Endpoint, p: Payload, f: Fields)
  {
    f.output == OutputOf(endpoint, p)
  }

  /**
   * The fields read are the values sent or their defaults: the content
   * stripped, the colours defaulting to the scheme's.
   */
  ghost predicate ReadFrom(p: Payload, f: Fields)
  {
    && SchemeField(p).Text? && f.scheme == SchemeField(p).s
    && IsScheme(f.scheme)
    && FieldOr(p, "content", Text("")).Text?
    && f.content == Strip(FieldOr(p, "content", Text("")).s)
    && f.level == FieldOr(p, "errorCorrection", Text("M"))
    && f.foreground == FieldOr(p, "foregroundColor", Text(SchemeColors(f.scheme).0))
    && f.background == FieldOr(p, "backgroundColor", Text(SchemeColors(f.scheme).1))
  }

  /** Reading the fields of a JSON body. */
  function ReadJson(endpoint: Endpoint, body: map<string, Value>): (r: Result<Fields, Failure>)
    ensures r.Success? <==> FieldOr(Json(body), "content", Text("")).Text? && KnownScheme(SchemeField(Json(body)))
    ensures r.Failure? && !FieldOr(Json(body), "content", Text("")).Text? ==> r.error == Internal(NotText("content"))
    ensures r.Failure? && FieldOr(Json(body), "content", Text("")).Text? ==>
      r.error == Internal(UnknownScheme(SchemeField(Json(body))))
    ensures r.Success? ==> ReadWell(endpoint, Json(body), r.value) && ReadFrom(Json(body), r.value) && r.value.logo == NoLogo
    ensures r.Success? ==> r.value.size == FieldOr(Json(body), "size", Number(10))
  {
    var p := Json(body);
    var content := FieldOr(p, "content", Text(""));
    if !content.Text? then Failure(Internal(NotText("content")))
    else
      var scheme := SchemeField(p);
      if !KnownScheme(scheme) then Failure(Internal(UnknownScheme(scheme)))
      else
        var colors := SchemeColors(scheme.s);
        Success(Fields(
          Strip(content.s), FieldOr(p, "size", Number(10)), FieldOr(p, "errorCorrection", Text("M")), scheme.s,
          FieldOr(p, "foregroundColor", Text(colors.0)), FieldOr(p, "backgroundColor", Text(colors.1)),
          OutputOf(endpoint, p), NoLogo))
  }

  /**
   * The logo of a form: the uploaded file if there is one, otherwise a
   * `backgroundImage` text field that is a data URL.
   */
  function FormLogo(fields: map<string, string>, uploaded: bool): Logo
  {
    if uploaded then Upload
    else if "backgroundImage" !in fields then NoLogo
    else match DataUrl.LogoPayload(fields["backgroundImage"])
      case Some(payload) => Encoded(payload)
      case None => NoLogo
  }

  /**
   * Reading the fields of a form; `parseInt` stands for Python's `int()` on
   * the text of the `size` field, None where it raises.
   */
  function ReadForm(endpoint: Endpoint, fields: map<string, string>, uploaded: bool,
                    parseInt: string -> Option<int>): (r: Result<Fields, Failure>)
    ensures r.Success? <==> SizeConverts(Form(fields, uploaded), parseInt) && KnownScheme(SchemeField(Form(fields, uploaded)))
    ensures r.Failure? && !SizeConverts(Form(fields, uploaded), parseInt) ==> r.error == Internal(BadSize(fields["size"]))
    ensures r.Failure? && SizeConverts(Form(fields, uploaded), parseInt) ==>
      r.error == Internal(UnknownScheme(SchemeField(Form(fields, uploaded))))
    ensures r.Success? ==> ReadWell(endpoint, Form(fields, uploaded), r.value) && ReadFrom(Form(fields, uploaded), r.value)
    ensures r.Success? ==> r.value.size == Number(if "size" in fields then parseInt(fields["size"]).value else 10)
    ensures r.Success? ==> r.value.logo == FormLogo(fields, uploaded)
  {
    var p := Form(fields, uploaded);
    if "size" in fields && parseInt(fields["size"]).None? then Failure(Internal(BadSize(fields["size"])))
    else
      var size := if "size" in fields then Number(parseInt(fields["size"]).value) else Number(10);
      var scheme := SchemeField(p);
      if !KnownScheme(scheme) then Failure(Internal(UnknownScheme(scheme)))
      else
        var colors := SchemeColors(scheme.s);
        Success(Fields(
          Strip(FormText(fields, uploaded, "content", "")), size, FieldOr(p, "errorCorrection", Text("M")), scheme.s,
          FieldOr(p, "foregroundColor", Text(colors.0)), FieldOr(p, "backgroundColor", Text(colors.1)),
          OutputOf(endpoint, p), FormLogo(fields, uploaded)))
  }

  /** A form value is always text: `request.form.get(key, default)`. */
  function FormText(fields: map<string, string>, uploaded: bool, key: string, default: string): (r: string)
    ensures FieldOr(Form(fields, uploaded), key, Text(default)) == Text(r)
  {
    Get(fields, key, default)
  }

  /** Reading the fields of either kind of payload. */
  function Read(endpoint: Endpoint, p: Payload, parseInt: string -> Option<int>): (r: Result<Fields, Failure>)
    ensures r.Success? <==>
      FieldOr(p, "content", Text("")).Text? && SizeConverts(p, parseInt) && KnownScheme(SchemeField(p))
    ensures r.Failure? ==> Status(r.error) == 500
    ensures r.Success? ==> ReadWell(endpoint, p, r.value) && ReadFrom(p, r.value)
    ensures r.Success? ==> r.value.size == SizeOf(p, parseInt)
    ensures r.Success? && p.Json? ==> r.value.logo == NoLogo
    ensures r.Success? && p.Form? ==> r.value.logo == FormLogo(p.fields, p.uploaded)
  {
    match p
    case Json(body) => ReadJson(endpoint, body)
    case Form(fields, uploaded) => ReadForm(endpoint, fields, uploaded, parseInt)
  }

  /** A colour that does not start with '#' is replaced by the default. */
  function NormalizeColor(color: string, default: string): (r: string)
    requires StartsWith(default, "#")
    ensures StartsWith(r, "#")
    ensures StartsWith(color, "#") ==> r == color
    ensures !StartsWith(color, "#") ==> r == default
  {
    if StartsWith(color, "#") then color else default
  }

  /** Normalising a colour twice is normalising it once. */
  lemma NormalizeColorIdempotent(color: string, default: string)
    requires StartsWith(default, "#")
    ensures NormalizeColor(NormalizeColor(color, default), default) == NormalizeColor(color, default)
  {
  }

  /** The checks after reading: content, the two colours, the error-correction level. */
  function Validate(f: Fields): (r: Result<GenerationRequest, Failure>)
    ensures r.Success? <==> f.content != [] && f.foreground.Text? && f.background.Text? && LevelOf(f.level).Some?
    ensures r.Failure? ==> (r.error == ContentRequired <==> f.content == [])
    ensures r.Success? ==> r.value.level == LevelOf(f.level).value
    ensures r.Success? ==> r.value.foreground == NormalizeColor(f.foreground.s, DefaultForeground)
    ensures r.Success? ==> r.value.background == NormalizeColor(f.background.s, DefaultBackground)
    ensures r.Success? ==> r.value.content == f.content && r.value.content != []
    ensures r.Success? ==> r.value.scheme == f.scheme && r.value.output == f.output && r.value.logo == f.logo
    ensures r.Success? ==> r.value.size == f.size
    ensures r.Success? ==> StartsWith(r.value.foreground, "#") && StartsWith(r.value.background, "#")
  {
    if f.content == [] then Failure(ContentRequired)
    else if !f.foreground.Text? then Failure(Internal(NotText("foregroundColor")))
    else if !f.background.Text? then Failure(Internal(NotText("backgroundColor")))
    else match LevelOf(f.level)
      case None => Failure(Internal(BadLevel(f.level)))
      case Some(level) =>
        Success(GenerationRequest(
          f.content, f.size, level, f.scheme,
          NormalizeColor(f.foreground.s, DefaultForeground), NormalizeColor(f.background.s, DefaultBackground),
          f.output, f.logo))
  }

  /**
   * Field resolution of either handler. A resolved request has non-empty
   * content, a known scheme and colours that start with '#'; a JSON body
   * never carries a logo.
   */
  function Resolve(endpoint: Endpoint, p: Payload, parseInt: string -> Option<int>): (r: Result<GenerationRequest, Failure>)
    ensures r.Success? ==> r.value.content != []
    ensures r.Success? ==> IsScheme(r.value.scheme)
    ensures r.Success? ==> StartsWith(r.value.foreground, "#") && StartsWith(r.value.background, "#")
    ensures r.Success? && p.Json? ==> r.value.logo == NoLogo
    ensures r.Success? && p.Form? ==> r.value.logo == FormLogo(p.fields, p.uploaded)
    ensures r.Success? ==> r.value.output == OutputOf(endpoint, p)
    ensures r.Success? ==> SizeConverts(p, parseInt) && r.value.size == SizeOf(p, parseInt)
  {
    match Read(endpoint, p, parseInt)
    case Failure(e) => Failure(e)
    case Success(f) => Validate(f)
  }

  /**
   * An unknown colour scheme is a server error whatever else the request
   * holds: the lookup runs while the fields are read, before the content is
   * checked, and even when both colours are given explicitly.
   */
  lemma UnknownSchemeIsServerError(endpoint: Endpoint, p: Payload, parseInt: string -> Option<int>)
    requires !KnownScheme(SchemeField(p))
    ensures Resolve(endpoint, p, parseInt).Failure?
    ensures Status(Resolve(endpoint, p, parseInt).error) == 500
  {
  }

  /**
   * Content that is empty after stripping is answered with 400 "Content is
   * required", provided nothing read before it failed: the content is text,
   * a form's size converts, and the scheme is known.
   */
  lemma BlankContentIsClientError(endpoint: Endpoint, p: Payload, parseInt: string -> Option<int>)
    requires FieldOr(p, "content", Text("")).Text?
    requires forall i :: 0 <= i < |FieldOr(p, "content", Text("")).s| ==> IsSpace(FieldOr(p, "content", Text("")).s[i])
    requires SizeConverts(p, parseInt)
    requires KnownScheme(SchemeField(p))
    ensures Resolve(endpoint, p, parseInt) == Failure(ContentRequired)
    ensures Status(Resolve(endpoint, p, parseInt).error) == 400
  {
    StripEmptyIffAllSpace(FieldOr(p, "content", Text("")).s);
  }

  /** A colour field read as text; absent colours default to the scheme's, which are text. */
  predicate ColorIsText(p: Payload, key: string)
  {
    Field(p, key).None? || Field(p, key).value.Text?
  }

  /**
   * Resolution succeeds exactly when the content is text with something
   * other than whitespace in it, a form's size converts, the scheme is
   * known, both colours are text and the level is one of L, M, Q, H.
   */
  lemma ResolveSucceedsIff(endpoint: Endpoint, p: Payload, parseInt: string -> Option<int>)
    ensures Resolve(endpoint, p, parseInt).Success? <==>
      && FieldOr(p, "content", Text("")).Text?
      && (exists i :: 0 <= i < |FieldOr(p, "content", Text("")).s| && !IsSpace(FieldOr(p, "content", Text("")).s[i]))
      && SizeConverts(p, parseInt)
      && KnownScheme(SchemeField(p))
      && ColorIsText(p, "foregroundColor") && ColorIsText(p, "backgroundColor")
      && LevelOf(FieldOr(p, "errorCorrection", Text("M"))).Some?
  {
    var read := Read(endpoint, p, parseInt);
    if read.Success? {
      var f := read.value;
      StripEmptyIffAllSpace(FieldOr(p, "content", Text("")).s);
      assert f.foreground.Text? <==> ColorIsText(p, "foregroundColor");
      assert f.background.Text? <==> ColorIsText(p, "backgroundColor");
      assert Resolve(endpoint, p, parseInt) == Validate(f);
    }
  }

  /**
   * The resolved foreground colour: the scheme's when none is sent, the one
   * sent when it starts with '#', and "#000000" (not the scheme's) otherwise.
   */
  lemma ResolvedForeground(endpoint: Endpoint, p: Payload, parseInt: string -> Option<int>)
    requires Resolve(endpoint, p, parseInt).Success?
    ensures var fg := Resolve(endpoint, p, parseInt).value.foreground;
      match Field(p, "foregroundColor")
      case None => fg == SchemeColors(SchemeField(p).s).0
      case Some(v) => v.Text? && fg == (if StartsWith(v.s, "#") then v.s else DefaultForeground)
  {
    var f := Read(endpoint, p, parseInt).value;
    assert Resolve(endpoint, p, parseInt) == Validate(f);
    SchemeColorsNeedNoReplacement(f.scheme);
  }

  /**
   * The resolved background colour: the scheme's when none is sent, the one
   * sent when it starts with '#', and "#FFFFFF" otherwise.
   */
  lemma ResolvedBackground(endpoint: Endpoint, p: Payload, parseInt: string -> Option<int>)
    requires Resolve(endpoint, p, parseInt).Success?
    ensures var bg := Resolve(endpoint, p, parseInt).value.background;
      match Field(p, "backgroundColor")
      case None => bg == SchemeColors(SchemeField(p).s).1
      case Some(v) => v.Text? && bg == (if StartsWith(v.s, "#") then v.s else DefaultBackground)
  {
    var f := Read(endpoint, p, parseInt).value;
    assert Resolve(endpoint, p, parseInt) == Validate(f);
    SchemeColorsNeedNoReplacement(f.scheme);
  }

  /**
   * A resolved request carries the content sent, stripped (so stripping it
   * again changes nothing), the level named by the text sent, and the
   * scheme sent.
   */
  lemma ResolvedContentAndLevel(endpoint: Endpoint, p: Payload, parseInt: string -> Option<int>)
    requires Resolve(endpoint, p, parseInt).Success?
    ensures FieldOr(p, "content", Text("")).Text?
    ensures var r := Resolve(endpoint, p, parseInt).value;
      && r.content == Strip(FieldOr(p, "content", Text("")).s)
      && Strip(r.content) == r.content
      && Some(r.level) == LevelOf(FieldOr(p, "errorCorrection", Text("M")))
      && r.scheme == SchemeField(p).s
  {
    StripIdempotent(FieldOr(p, "content", Text("")).s);
  }

  /** Both colours of a palette entry are hex strings. */
  predicate HexEntry(entry: (string, (string, string)))
  {
    StartsWith(entry.1.0, "#") && StartsWith(entry.1.1, "#")
  }

  /** A lookup among hex entries finds only hex colours. */
  lemma {:induction false} LookupKeepsHex(entries: seq<(string, (string, string))>, name: string)
    requires forall i :: 0 <= i < |entries| ==> HexEntry(entries[i])
    requires Lookup(entries, name).Some?
    ensures HexEntry((name, Lookup(entries, name).value))
  {
    var last := |entries| - 1;
    if name != entries[last].0 {
      LookupKeepsHex(entries[..last], name);
    } else {
      assert HexEntry(entries[last]);
    }
  }

  /**
   * The scheme colours all start with '#', so a request that names only a
   * scheme keeps the scheme's colours.
   */
  lemma SchemeColorsNeedNoReplacement(name: string)
    requires IsScheme(name)
    ensures StartsWith(SchemeColors(name).0, "#") && StartsWith(SchemeColors(name).1, "#")
  {
    forall i | 0 <= i < |Palette| ensures HexEntry(Palette[i]) {
      assert Palette[i].1.0[0] == '#' && Palette[i].1.1[0] == '#';
    }
    LookupKeepsHex(Palette, name);
  }

  /** A lookup finds the colours of the last entry with the name. */
  lemma {:induction false} LookupFindsLast(entries: seq<(string, (string, string))>, name: string, k: nat)
    requires k < |entries| && entries[k].0 == name
    requires forall i :: k < i < |entries| ==> entries[i].0 != name
    ensures Lookup(entries, name) == Some(entries[k].1)
  {
    var last := |entries| - 1;
    if k < last {
      LookupFindsLast(entries[..last], name, k);
    }
  }

  /** A lookup finds nothing exactly when no entry has the name (Python's KeyError). */
  lemma {:induction false} LookupNoneIffAbsent(entries: seq<(string, (string, string))>, name: string)
    ensures Lookup(entries, name).None? <==> forall i :: 0 <= i < |entries| ==> entries[i].0 != name
  {
    if entries != [] {
      var last := |entries| - 1;
      LookupNoneIffAbsent(entries[..last], name);
      assert forall i :: 0 <= i < last ==> entries[..last][i] == entries[i];
    }
  }

  /** The table's keys are exactly the six scheme names. */
  lemma SchemeNames(name: string)
    ensures IsScheme(name) <==> name in {"Classic", "Blue", "Green", "Purple", "Red", "Custom"}
  {
    LookupNoneIffAbsent(Palette, name);
    if name == "Classic" { assert Palette[0].0 == name; }
    else if name == "Blue" { assert Palette[1].0 == name; }
    else if name == "Green" { assert Palette[2].0 == name; }
    else if name == "Purple" { assert Palette[3].0 == name; }
    else if name == "Red" { assert Palette[4].0 == name; }
    else if name == "Custom" { assert Palette[5].0 == name; }
  }

  /**
   * The scheme a request gets when it names none is in the table, with
   * black on white.
   */
  lemma DefaultSchemeKnown()
    ensures IsScheme("Classic")
    ensures SchemeColors("Classic") == ("#000000", "#FFFFFF")
  {
    forall i | 0 < i < |Palette| ensures Palette[i].0 != "Classic" {
      assert |Palette[i].0| != |"Classic"|;
    }
    LookupFindsLast(Palette, "Classic", 0);
  }

  /**
   * Without an uploaded file, a form whose `backgroundImage` is a browser
   * data URL carries the base64 payload after its comma as the logo; an
   * uploaded file takes precedence over the text field.
   */
  lemma FormDataUrlLogo(fields: map<string, string>, mediaType: string, payload: string)
    requires ',' !in mediaType && ',' !in payload
    requires "backgroundImage" in fields
    requires fields["backgroundImage"] == DataUrl.Marker + mediaType + "," + payload
    ensures FormLogo(fields, false) == Encoded(payload)
    ensures FormLogo(fields, true) == Upload
  {
    DataUrl.PayloadRoundTrip(mediaType, payload, []);
    assert DataUrl.Marker + mediaType + "," + payload + [] == fields["backgroundImage"];
  }
}

=== FILE: service.dfy ===
/**
 * The generate and download handlers around the modelled core: resolve the
 * fields, then (on success) render and, for generate, record the history
 * entry. Rendering (QR encoding, the logo compositing of module Compositor,
 * PNG and base64 encoding) is the parameter `render`, None where it raises.
 */
module Service {
  import opened Outcomes
  import opened Request
  import opened Store
  import opened Strings

  datatype Response = Generated(imageUrl: string, request: GenerationRequest) | Rejected(status: int, failure: Failure)

  /**
   * `POST /generate-qr`. A request that fails resolution is answered with
   * its status and leaves the history alone; a resolved one is rendered and
   * recorded when `auto_history` is on. A rendering step that raises is
   * answered 500 before the history is touched.
   */
  method GenerateQr(state: AppState, p: Payload, parseInt: string -> Option<int>,
                    render: GenerationRequest -> Option<string>, createdAt: string) returns (response: Response)
    requires state.Valid()
    modifies state
    ensures state.Valid() && state.settings == old(state.settings)
    ensures match Resolve(Generate, p, parseInt)
      case Failure(e) =>
        && response == Rejected(Status(e), e)
        && state.history == old(state.history)
      case Success(req) =>
        match render(req)
        case None =>
          && response == Rejected(500, Internal(RenderFailed))
          && state.history == old(state.history)
        case Some(imageUrl) =>
          && response == Generated(imageUrl, req)
          && state.history == if AutoHistory(old(state.settings))
                              then old(state.history) + [NewRecord(|old(state.history)| + 1, req, imageUrl, createdAt)]
                              else old(state.history)
  {
    match Resolve(Generate, p, parseInt) {
      case Failure(e) =>
        response := Rejected(Status(e), e);
      case Success(req) =>
        match render(req) {
          case None =>
            response := Rejected(500, Internal(RenderFailed));
          case Some(imageUrl) =>
            state.RecordGeneration(req, imageUrl, createdAt);
            response := Generated(imageUrl, req);
        }
    }
  }

  /** What `POST /download-qr` returns for a resolved request. */
  datatype Artifact = Svg | Png(logo: Logo)

  /**
   * `POST /download-qr`: the format "svg" gives the encoder's vector output,
   * with no logo; any other format gives the PNG, with the logo if any.
   */
  function DownloadQr(p: Payload, parseInt: string -> Option<int>): (r: Result<Artifact, Failure>)
    ensures r.Failure? <==> Resolve(Download, p, parseInt).Failure?
    ensures r.Success? ==> (r.value.Svg? <==> FieldOr(p, "format", Text("png")) == Text("svg"))
    ensures r.Success? && r.value.Png? ==> r.value.logo == Resolve(Download, p, parseInt).value.logo
  {
    match Resolve(Download, p, parseInt)
    case Failure(e) => Failure(e)
    case Success(req) => Success(if req.output.format == Text("svg") then Svg else Png(req.logo))
  }

  /**
   * A rejected generate request is answered 400 exactly when every read
   * succeeded (the content is text, a form's size converts, the scheme is
   * known) and the content is blank; every other rejection is a 500.
   */
  lemma RejectionStatus(p: Payload, parseInt: string -> Option<int>)
    requires Resolve(Generate, p, parseInt).Failure?
    ensures Status(Resolve(Generate, p, parseInt).error) == 400 <==>
      && FieldOr(p, "content", Text("")).Text?
      && SizeConverts(p, parseInt)
      && KnownScheme(SchemeField(p))
      && Strip(FieldOr(p, "content", Text("")).s) == []
  {
  }
}

=== FILE: store.dfy ===
/**
 * The process-wide state of the service: the generation history, appended
 * to after a successful generation when `auto_history` is on, and the
 * settings dictionary, merged by `POST /settings`.
 */
module Store {
  import opened Request

  /** One history entry; `imageUrl` is the PNG data URL and `createdAt` the clock's ISO timestamp. */
  datatype Record = Record(
    id: nat, content: string, qrType: Value, size: Value, errorCorrection: Level,
    colorScheme: string, foreground: string, background: string,
    imageUrl: string, createdAt: string)

  /** The settings the process starts with. */
  const InitialSettings: map<string, Value> := map[
    "default_size" := Number(10),
    "default_error_correction" := Text("M"),
    "default_color_scheme" := Text("Classic"),
    "auto_save" := Flag(true),
    "auto_history" := Flag(true),
    "default_type" := Text("URL")
  ]

  /** `settings.get('auto_history', True)`, read for its truthiness. */
  predicate AutoHistory(settings: map<string, Value>)
  {
    "auto_history" !in settings || Truthy(settings["auto_history"])
  }

  /** `settings.update(patch)`: the supplied keys take the supplied values, the others keep theirs. */
  function Merged(settings: map<string, Value>, patch: map<string, Value>): (m: map<string, Value>)
    ensures m.Keys == settings.Keys + patch.Keys
    ensures forall k :: k in patch ==> m[k] == patch[k]
    ensures forall k :: k in settings && k !in patch ==> m[k] == settings[k]
  {
    settings + patch
  }

  /** Ids run 1, 2, ..., n in append order. */
  ghost predicate SequentialIds(history: seq<Record>)
  {
    forall i :: 0 <= i < |history| ==> history[i].id == i + 1
  }

  /** The history entry of a resolved generate request. */
  function NewRecord(id: nat, req: GenerationRequest, imageUrl: string, createdAt: string): Record
    requires req.output.Preview?
  {
    Record(id, req.content, req.output.qrType, req.size, req.level,
           req.scheme, req.foreground, req.background, imageUrl, createdAt)
  }

  class AppState {
    var history: seq<Record>
    var settings: map<string, Value>

    ghost predicate Valid()
      reads this
    {
      SequentialIds(history)
    }

    constructor ()
      ensures Valid()
      ensures history == [] && settings == InitialSettings
    {
      history := [];
      settings := InitialSettings;
    }

    /**
     * The history step of the generate handler: with `auto_history` on,
     * exactly one entry is appended, numbered one past the current length;
     * otherwise the history is left as it is. Settings do not change.
     */
    method RecordGeneration(req: GenerationRequest, imageUrl: string, createdAt: string)
      requires Valid() && req.output.Preview?
      modifies this
      ensures Valid()
      ensures settings == old(settings)
      ensures AutoHistory(settings) ==>
        history == old(history) + [NewRecord(|old(history)| + 1, req, imageUrl, createdAt)]
      ensures !AutoHistory(settings) ==> history == old(history)
    {
      if AutoHistory(settings) {
        var item := NewRecord(|history| + 1, req, imageUrl, createdAt);
        history := history + [item];
      }
    }

    /** `POST /settings` with a JSON object body. The history does not change. */
    method UpdateSettings(patch: map<string, Value>)
      requires Valid()
      modifies this
      ensures Valid()
      ensures history == old(history)
      ensures settings == Merged(old(settings), patch)
    {
      settings := settings + patch;
    }
  }

  /** Ids numbered 1..n are distinct and each names the entry at position id - 1. */
  lemma SequentialIdsLocate(history: seq<Record>, i: int, j: int)
    requires SequentialIds(history)
    requires 0 <= i < |history| && 0 <= j < |history|
    ensures history[i].id == history[j].id <==> i == j
    ensures 1 <= history[i].id <= |history|
  {
  }

  /** The process starts with history recording on. */
  lemma InitiallyRecording()
    ensures AutoHistory(InitialSettings)
  {
  }

  /** Sending `auto_history: false` (or 0, "" or null) turns recording off. */
  lemma FalsySettingStopsRecording(settings: map<string, Value>, v: Value)
    requires !Truthy(v)
    ensures !AutoHistory(Merged(settings, map["auto_history" := v]))
  {
  }

  /**
   * Settings are not validated: the string "false" is truthy, so sending it
   * leaves recording on.
   */
  lemma TextFalseKeepsRecording(settings: map<string, Value>)
    ensures AutoHistory(Merged(settings, map["auto_history" := Text("false")]))
  {
  }

  /** Merging the same patch twice is merging it once, and an empty patch changes nothing. */
  lemma MergeIdempotent(settings: map<string, Value>, patch: map<string, Value>)
    ensures Merged(Merged(settings, patch), patch) == Merged(settings, patch)
    ensures Merged(settings, map[]) == settings
  {
  }
}

=== FILE: strings.dfy ===
/** The few Python string operations the request handlers use. */
module Strings {

  /** Python's `str.isspace` for one character. */
  predicate IsSpace(c: char)
  {
    || c == ' ' || c == '\t' || c == '\n' || c == '\U{B}' || c == '\U{C}' || c == '\r'
    || ('\U{1C}' <= c <= '\U{1F}') || c == '\U{85}' || c == '\U{A0}' || c == '\U{1680}'
    || ('\U{2000}' <= c <= '\U{200A}') || c == '\U{2028}' || c == '\U{2029}'
    || c == '\U{202F}' || c == '\U{205F}' || c == '\U{3000}'
  }

  /** `s.lstrip()`: drop the leading whitespace. */
  function TrimStart(s: string): (r: string)
    ensures |r| <= |s| && r == s[|s| - |r|..]
    ensures forall i :: 0 <= i < |s| - |r| ==> IsSpace(s[i])
    ensures r == [] || !IsSpace(r[0])
  {
    if s != [] && IsSpace(s[0]) then TrimStart(s[1..]) else s
  }

  /** `s.rstrip()`: drop the trailing whitespace. */
  function TrimEnd(s: string): (r: string)
    ensures |r| <= |s| && r == s[..|r|]
    ensures forall i :: |r| <= i < |s| ==> IsSpace(s[i])
    ensures r == [] || !IsSpace(r[|r| - 1])
  {
    if s != [] && IsSpace(s[|s| - 1]) then TrimEnd(s[..|s| - 1]) else s
  }

  /** `s.strip()`. */
  function Strip(s: string): string
  {
    TrimEnd(TrimStart(s))
  }

  /**
   * `s[i..j]` is `s` with only whitespace cut off on either side.
   */
  predicate TrimmedSlice(s: string, i: int, j: int)
  {
    && 0 <= i <= j <= |s|
    && (forall k :: 0 <= k < i ==> IsSpace(s[k]))
    && (forall k :: j <= k < |s| ==> IsSpace(s[k]))
  }

  /**
   * The stripped string is a slice of the original with no whitespace at
   * either end, and everything cut off on either side was whitespace.
   */
  lemma StripIsTrimmedSlice(s: string)
    ensures exists i, j :: TrimmedSlice(s, i, j) && Strip(s) == s[i..j]
    ensures Strip(s) == [] || (!IsSpace(Strip(s)[0]) && !IsSpace(Strip(s)[|Strip(s)| - 1]))
  {
    var t := TrimStart(s);
    var i, j := StripSliceAt(s);
    if Strip(s) != [] {
      assert Strip(s)[0] == t[0];
    }
  }

  /** Where the stripped slice sits: it starts where `TrimStart` does. */
  lemma StripSliceAt(s: string) returns (i: int, j: int)
    ensures TrimmedSlice(s, i, j) && Strip(s) == s[i..j]
  {
    i, j := TrimmedAt(s, TrimStart(s), Strip(s));
  }

  /**
   * `r` is a prefix of the suffix `t` of `s`, with whitespace only before `t`
   * and after `r`.
   */
  lemma TrimmedAt(s: string, t: string, r: string) returns (i: int, j: int)
    requires |t| <= |s| && t == s[|s| - |t|..]
    requires forall k :: 0 <= k < |s| - |t| ==> IsSpace(s[k])
    requires |r| <= |t| && r == t[..|r|]
    requires forall k :: |r| <= k < |t| ==> IsSpace(t[k])
    ensures TrimmedSlice(s, i, j) && r == s[i..j]
  {
    i, j := |s| - |t|, |s| - |t| + |r|;
    SliceOfSuffix(s, i, |r|);
    forall k | j <= k < |s| ensures IsSpace(s[k]) {
      assert s[k] == t[k - i];
    }
  }

  /** A prefix of a suffix is a slice. */
  lemma SliceOfSuffix(s: string, i: nat, n: nat)
    requires i + n <= |s|
    ensures s[i..][..n] == s[i..i + n]
  {
  }

  /** Stripping yields the empty string exactly when every character is whitespace. */
  lemma StripEmptyIffAllSpace(s: string)
    ensures Strip(s) == [] <==> forall i :: 0 <= i < |s| ==> IsSpace(s[i])
  {
  }

  /** Stripping twice is stripping once. */
  lemma StripIdempotent(s: string)
    ensures Strip(Strip(s)) == Strip(s)
  {
    var r := Strip(s);
    StripIsTrimmedSlice(s);
    assert TrimStart(r) == r;
    assert TrimEnd(r) == r;
  }

  /** Python's `s.startswith(prefix)`. */
  predicate StartsWith(s: string, prefix: string)
  {
    |prefix| <= |s| && s[..|prefix|] == prefix
  }

  /** The text before the first comma, or all of `s` if it has none. */
  function UpToComma(s: string): (r: string)
    ensures |r| <= |s| && r == s[..|r|]
    ensures ',' !in r
    ensures |r| < |s| ==> s[|r|] == ','
  {
    if s == [] || s[0] == ',' then [] else [s[0]] + UpToComma(s[1..])
  }

  /** The comma-free text before the first comma is the whole string exactly when it has no comma. */
  lemma UpToCommaWholeIffNoComma(s: string)
    ensures UpToComma(s) == s <==> ',' !in s
  {
    if ',' in s {
      var r := UpToComma(s);
      assert r != s;
    }
  }

  /** Python's `s.split(',')[1]`: the text between the first and the second comma. */
  function SecondField(s: string): (r: string)
    requires ',' in s
  {
    UpToComma(s[|UpToComma(s)| + 1..])
  }
}
